=== FILE: README.md ===
# Bookmark store of the recipe site, in Dafny

The recipe site keeps a user's bookmarked recipes in the browser's IndexedDB:
one object store (`recipeIDs` in database `bookmarkDB`, version 1) with an
auto-increment primary key, a unique index on the recipe `id` and a non-unique
index on `published_at`. A module-level handle is opened once per page load by
`initializeBookmark`; the other operations (`addBookmark`, `updateBookmark`,
`removeBookmark`, `isInBookmark`, `countBookmark`, `clearBookmark`,
`toggleBookmark`, `fetchBookmark`, `prevOrNextPageExists`) reject while it is
missing. Two client state machines use the store: the bookmark button of each
recipe list element, and the bookmark list page with its paging links and sort
order selector.

The model is functional. A `Store` value holds the handle flag, the persisted
database version, the records in ascending key order and the key generator's
next key. Each operation returns the new store and a `Reply`: `Resolved`,
`Rejected` with an error, or `Pending` for a promise that never settles. The two
UI components are pure transition functions over store replies.

Files:

- `recipes.dfy`: the recipe record and lexicographic string order (`published_at`).
- `sorting_orders.dfy`: the four sort orders, their query names and labels, and the store's cursor selection for a raw order string.
- `bookmark_order.dfy`: the records and the four cursor views (insertion sort by index position, reversal), with proofs that each view is the unique strictly ordered arrangement.
- `paging.dfy`: page slices, page count and the previous/next flags.
- `bookmark_store.dfy`: the store and its operations, including the event-by-event cursor walk of `fetchBookmark`.
- `bookmark_store_properties.dfy`: invariant preservation, membership, count, toggle and listing lemmas.
- `recipe_button.dfy`: the bookmark button's states, transitions, icon and text.
- `bookmark_page.dfy`: the bookmark list page's effect, links, order change and rendering.

Three behaviours of the code that are easy to misread:

- `updateBookmark` for an id that is not stored does not quietly do nothing. Its cursor is null, `cursor.update` throws inside the success handler, the transaction aborts and the promise never settles (`Pending`, store unchanged).
- Opening the database again on a later page load keeps every stored bookmark. The object store is recreated empty only on a version upgrade, that is on a browser that never opened it.
- A page past the end is empty, except on an empty store, where page 2 and later never settle, and on a page whose skipped records exceed what `IDBCursor.advance` accepts (2^32-1), which never settles either (see Findings). The list page is modelled over that fetch as written, so there it keeps showing the loading message. The corrected fetch is stated beside it, and the two agree wherever the written one settles.

## Model

| member | source | states |
|---|---|---|
| SortingOrders.CursorOrder | lib/client/bookmark.ts:186-202 | an order string starting with "Bookmarked" walks the key order, any other walks the `published_at` index; only the two exact reverse names walk backwards |
| SortingOrders.NameRoundTrip | lib/client/bookmark.ts:14-19 | each of the four order names selects its own order's cursor |
| SortingOrders.AllOrdersListsEachOnce | lib/client/bookmark.ts:14-20 | the iterable order list holds every order exactly once |
| SortingOrders.LabelsAndNamesDistinct | lib/client/bookmark.ts:25-38 | the display label is total over the four orders and no two orders share a label or a name |
| BookmarkOrder.RecordView | lib/client/bookmark.ts:186-202 | every cursor view holds exactly the stored records (same multiset) |
| BookmarkOrder.RecordViewSorted | lib/client/bookmark.ts:186-202 | each view is strictly ordered: key ascending or descending, or (published_at, key) ascending or descending |
| BookmarkOrder.RecordViewCharacterized | lib/client/bookmark.ts:186-202 | any arrangement of the records strictly ordered by the cursor's order is the view, so the view is exactly the cursor's visiting order |
| BookmarkOrder.SortedPermutationUnique | lib/client/bookmark.ts:194-201 | two strictly ordered arrangements of the same records coincide |
| BookmarkOrder.SortByPublishedSorted | lib/client/bookmark.ts:194-201 | walking the `published_at` index forwards visits the records strictly ascending by (published_at, key) |
| Paging.PageOf | lib/client/bookmark.ts:207-221 | a page holds at most 10 recipes, the contiguous run of the view starting after (page-1)*10 records, as many as remain up to 10 |
| Paging.PageCountIsCeiling | lib/client/bookmark.ts:290 | the page count is count/10 rounded up: the fewest pages holding every record |
| Paging.PrevOrNextExamples | lib/client/bookmark.ts:287-295 | with 25 bookmarks page 1 gives [false, true], page 2 [true, true], page 3 [true, false] |
| Paging.PageNonEmptyIffInRange | lib/client/bookmark.ts:207-221 | a page has records exactly when the view is non-empty and the page is at most the page count |
| Paging.NextFlagIffNextPageNonEmpty | lib/client/bookmark.ts:290-293 | for a page of 0 or more, or a non-empty view, the next-page flag is set exactly when the next page has records |
| Paging.RunIsPage | lib/client/bookmark.ts:217-221 | a run of the view that starts after the skipped records and stops at the end or after 10 records is exactly that page |
| Paging.PagesArePrefix | lib/client/bookmark.ts:206-221 | pages 1 to k, joined, are the first k*10 records of the view (or all of it) |
| Paging.PagesCoverView | lib/client/bookmark.ts:206-221 | pages 1 to the page count, joined, give the whole view |
| BookmarkStore.FindId | lib/client/bookmark.ts:66 | the `id` index lookup finds a record with the id exactly when one is stored |
| BookmarkStore.Reload | lib/client/bookmark.ts:9-10 | a new page load drops the handle and keeps the persisted records, version and key generator |
| BookmarkStore.Initialize | lib/client/bookmark.ts:44-78 | resolves false iff the handle is open, and then returns the store unchanged; otherwise opens it at the current schema version and resolves true, recreating an empty store with a fresh key generator when the stored version is older and keeping the records when it is current; rejects with a version error, store unchanged, when the stored version is newer |
| BookmarkStore.Add | lib/client/bookmark.ts:84-98 | resolves iff the store is open, the id is new and keys remain; then appends exactly one record under the next key, keeps the handle open and the version, and advances the key generator by one; otherwise rejects (not initialized, or constraint error) and changes nothing |
| BookmarkStore.Update | lib/client/bookmark.ts:104-120 | with the id stored, replaces that record's value under the same key; with it absent the promise never settles and nothing changes; rejects when not initialized |
| BookmarkStore.Remove | lib/client/bookmark.ts:127-145 | resolves whether a record with the id was stored; true deletes exactly that one record, keeping the rest in order; false changes nothing |
| BookmarkStore.IsIn | lib/client/bookmark.ts:151-165 | resolves true iff some stored record carries the id; read-only |
| BookmarkStore.Count | lib/client/bookmark.ts:231-245 | resolves the number of stored records |
| BookmarkStore.Clear | lib/client/bookmark.ts:250-262 | empties the store and keeps the key generator |
| BookmarkStore.Toggle | lib/client/bookmark.ts:269-280 | resolves true iff the recipe was not bookmarked; the store is then exactly the one removing the recipe (present) or adding it (absent) leaves; rejects when not initialized |
| BookmarkStore.PrevOrNextPageExists | lib/client/bookmark.ts:287-295 | resolves [page > 1, page*10 < count]; rejects when the count does |
| BookmarkStore.FetchAsWritten | lib/client/bookmark.ts:173-225 | rejects when not initialized; never settles exactly when the store is open, the page is after the first, and the store is empty or the count passed to `advance` exceeds 2^32-1; otherwise resolves the same page as the corrected fetch |
| BookmarkStore.FetchByCursor | lib/client/bookmark.ts:204-222 | the event-by-event cursor walk (advance once, throwing on a null cursor or an out-of-range count, then collect while the cursor is non-null and fewer than 10 are held) computes the written fetch |
| BookmarkStore.CollectFrom | lib/client/bookmark.ts:217-221 | the success events after the advance collect exactly the page: the run of the view after the skipped records, up to 10 |
| BookmarkStore.Fetch | lib/client/bookmark.ts:173-225 | resolves the view's run starting after (page-1)*10 records, exactly min(10, remaining) recipes long; a page past the end is empty; rejects when not initialized |
| BookmarkStoreProperties.UninitializedRejectsEverything | lib/client/bookmark.ts:86 | before the handle is open every operation rejects as not initialized and leaves the store as it was |
| BookmarkStoreProperties.FirstOpenThenAlreadyOpen | lib/client/bookmark.ts:44-78 | the first open on a new browser resolves true with an empty valid store; opening again resolves false and changes nothing |
| BookmarkStoreProperties.ReloadKeepsBookmarks | lib/client/bookmark.ts:72-75 | opening on a later page load resolves true and keeps every bookmark under its key |
| BookmarkStoreProperties.InitializePreservesValid | lib/client/bookmark.ts:50-75 | opening keeps the store's invariant: ascending keys below the next key, unique recipe ids |
| BookmarkStoreProperties.AddAppendsWithFreshKey | lib/client/bookmark.ts:58-66 | a successful add uses a key larger than every stored key, grows the count by one, makes the id present and keeps ids unique |
| BookmarkStoreProperties.AddDuplicateRejected | lib/client/bookmark.ts:66 | adding a stored id is refused by the unique index and leaves the count unchanged |
| BookmarkStoreProperties.RemoveAtKeepsShape | lib/client/bookmark.ts:134-139 | deleting one record keeps the invariant and removes exactly its id |
| BookmarkStoreProperties.RemoveDeletesExactlyOne | lib/client/bookmark.ts:122-145 | removing a stored id makes it absent, drops the count by one and leaves every other id's membership; an absent id changes nothing |
| BookmarkStoreProperties.UpdateKeepsKeys | lib/client/bookmark.ts:111-116 | updating a stored recipe keeps every key and every other record, and the invariant |
| BookmarkStoreProperties.ClearKeepsKeyGenerator | lib/client/bookmark.ts:257 | after clearing the count is 0 and a new bookmark gets a key larger than any earlier one |
| BookmarkStoreProperties.ToggleFlipsMembership | lib/client/bookmark.ts:269-280 | while the key generator has keys, toggling flips the recipe's membership, resolves the new membership, moves the count by exactly one and leaves every other recipe's membership as it was |
| BookmarkStoreProperties.ToggleTwiceRestores | lib/client/bookmark.ts:269-280 | toggling twice restores membership and count |
| BookmarkStoreProperties.ToggleReportsUnobservedAddFailure | lib/client/bookmark.ts:275-277 | when the add fails unawaited, toggle still resolves true with nothing added |
| BookmarkStoreProperties.EmptyStoreLaterPageNeverSettles | lib/client/bookmark.ts:207-215 | as written, page 2 of an empty store never settles; the corrected fetch resolves an empty page |
| BookmarkStoreProperties.LargePageNeverSettles | lib/client/bookmark.ts:211-215 | as written, page 429496731 of a one-bookmark store never settles while page 429496730 resolves empty; the corrected fetch resolves an empty page |
| BookmarkStoreProperties.FetchAgreesWhereSettled | lib/client/bookmark.ts:207-221 | wherever the written fetch settles, it equals the corrected one |
| BookmarkStoreProperties.FetchPastEndIsEmpty | lib/client/bookmark.ts:217-221 | a page past the last one resolves an empty list, not an error |
| BookmarkStoreProperties.ViewIsOrderedPermutation | lib/client/bookmark.ts:186-202 | the listed view holds every stored record once, strictly in the cursor's order |
| BookmarkStoreProperties.FetchPagesCoverStore | lib/client/bookmark.ts:206-221 | fetching pages 1 to the page count lists every bookmark exactly once, in cursor order |
| BookmarkStoreProperties.NewestBookmarkFirst | lib/client/bookmark.ts:187-192 | in reverse bookmarked-date order page 1 starts with the most recently added bookmark |
| BookmarkStoreProperties.PublishedOrderAcrossPages | lib/client/bookmark.ts:194-201 | in chronological publish order nothing on a later page was published before anything on an earlier page |
| BookmarkStoreProperties.SortedPagesInOrder | lib/client/bookmark.ts:194-221 | in any view sorted by publish date, no recipe on a later page was published before one on an earlier page |
| BookmarkStoreProperties.NextFlagIffNextPageHasRecipes | lib/client/bookmark.ts:287-294 | for a page of 0 or more, or a non-empty store, the store's next-page flag is set exactly when fetching the next page returns recipes |
| BookmarkStoreProperties.PrevOrNextOnTwentyFive | lib/client/bookmark.ts:287-294 | with 25 bookmarks, page 1 gives [false, true] and page 3 gives [true, false] |
| RecipeButton.OnMount | components/recipe-list-element.tsx:27-44 | returns the store initialize leaves, so the handle is open afterwards; keeps the state when unmounted or when initialize or lookup fails; otherwise Bookmarked iff the store holds the recipe, else NotBookmarked |
| RecipeButton.OnClick | components/recipe-list-element.tsx:46-56 | NewBookmarked iff the recipe was absent, NewNotBookmarked iff present, Error when the toggle rejects |
| RecipeButton.Icon | components/recipe-list-element.tsx:87-98 | check mark exactly for the two bookmarked states, hourglass for loading, pin for the two not-bookmarked states, cross for error |
| RecipeButton.StatusText | components/recipe-list-element.tsx:99-105 | text only in the two New states: "added" for NewBookmarked, "removed" for NewNotBookmarked |
| RecipeButton.InitialShowsHourglass | components/recipe-list-element.tsx:23 | a fresh button is Loading: hourglass and no text |
| RecipeButton.MountedIconReflectsStore | components/recipe-list-element.tsx:32-39 | after a completed lookup on a mounted element the icon is the check mark exactly when the store holds the recipe |
| RecipeButton.FailedMountKeepsLoading | components/recipe-list-element.tsx:35-38 | a failed initialization leaves a fresh button Loading |
| RecipeButton.ClickIconReflectsStore | components/recipe-list-element.tsx:46-56 | while the key generator has keys, after a click on an open store the icon and text reflect the recipe's new membership |
| RecipeButton.MountThenClickToggles | components/recipe-list-element.tsx:31-56 | the mount opens the handle, so a later click toggles instead of showing the error state |
| RecipeButton.ClickBeforeInitShowsError | components/recipe-list-element.tsx:48-53 | a click before the store is open shows the error icon and no text |
| BookmarkPage.PageNumber | pages/bookmark/index.tsx:80 | a missing or empty page parameter means page 1 |
| BookmarkPage.OrderParam | pages/bookmark/index.tsx:81-83 | a missing or empty order parameter means reverse bookmarked-date order; any other value is kept as given |
| BookmarkPage.Effect | pages/bookmark/index.tsx:65-116 | initialization failure shows Error and skips fetching; otherwise Loaded with the fetched page exactly unless the page is after the first and the store is empty or its skipped records exceed 2^32-1, where it stays Loading with the old recipes; a previous link iff page > 1 and a next link iff more records follow, each carrying page -1 or +1 and the same order |
| BookmarkPage.OnSortingOrderSelected | pages/bookmark/index.tsx:119-127 | choosing an order targets page 1 of exactly that order |
| BookmarkPage.Render | pages/bookmark/index.tsx:156-171 | the list shows only when loaded with recipes; loaded with none shows the not-found message |
| BookmarkPage.InitialViewShowsLoading | pages/bookmark/index.tsx:42-63 | before the effect runs the page shows the loading message, with the selector on the default order |
| BookmarkPage.LinkRoundTrip | pages/bookmark/index.tsx:89-104 | following a link reads back its page and order |
| BookmarkPage.BareVisitShowsNewestFirst | pages/bookmark/index.tsx:80-83 | a visit without parameters shows page 1, no previous link, newest bookmark first |
| BookmarkPage.FailedInitShowsError | pages/bookmark/index.tsx:72-77 | a failed initialization shows the error screen and leaves the recipes untouched |
| BookmarkPage.EmptyStoreLaterPageStaysLoading | pages/bookmark/index.tsx:106-113 | on an empty store, page 2 or later stays on the loading message, since the fetch never settles |
| BookmarkPage.NextLinkLeadsToRecipes | pages/bookmark/index.tsx:97-104 | for a page of 0 or more, or a non-empty store, the next link is offered exactly when the next page has recipes; following it shows the list while the skipped records fit the advance count, and the loading message beyond that |
| BookmarkPage.SelectingOrderShowsFirstPage | pages/bookmark/index.tsx:119-127 | after choosing an order the page shows page 1 of the store in that order, the selector shows that order, and there is no previous link |

## Left out

- IndexedDB requests, events, callbacks and transaction modes: each operation is one atomic step on the store value.
- The mechanics of the schema upgrade: only its outcome is modelled, an empty object store with a fresh key generator.
- Engine failures other than a newer stored version (quota exceeded, storage unavailable, a blocked open): the model has no source for them, so no operation rejects for them.
- Asynchrony and races: `toggleBookmark` does not await its remove or add. The model runs them in order and reports only the unawaited add failure (`ToggleReportsUnobservedAddFailure`). Concurrent initialization from several mounted views is not modelled.
- Key numbers are unbounded integers. Only the key generator's 2^53 limit is modelled.
- `published_at` strings are compared character by character on code points. IndexedDB compares UTF-16 code units. The two differ only between supplementary characters and U+E000–U+FFFF, which ISO 8601 timestamps do not contain. Date semantics are not modelled.
- `Number()` conversion of the page parameter: NaN and fractional page numbers are not modelled. The page number is taken as the integer it converts to.
- URL encoding by `URLSearchParams`: links are kept as structured (page, order) pairs. Only the computed target of `router.push` is modelled, not the navigation.
- The default parameter values of `fetchBookmark`: the list page always passes both arguments.
- The unreachable fallbacks (`return null` in `sortingOrderToString`, "Unexpected behaviour" in the button): the datatypes are closed.
- JSX rendering, CSS and images, the head, header and current-URL helpers, `_app` and `_document`.
- The recipe API, search and server-side props, which are network I/O.
- The reset page's UI: its `clearBookmark` call is `BookmarkStore.Clear`.
- Paging.NextFlagIffNextPageNonEmpty: stated for page numbers of 0 or more and for non-empty views. On an empty view with a negative page number the flag is set although the next page is empty.
- BookmarkStoreProperties.NextFlagIffNextPageHasRecipes: stated for page numbers of 0 or more and for non-empty stores, for the same reason.
- BookmarkPage.NextLinkLeadsToRecipes: stated for page numbers of 0 or more and for non-empty stores, for the same reason.

## Findings

| source | as written | input that shows it | evidently intended | confidence | as-written member | corrected member |
|---|---|---|---|---|---|---|
| lib/client/bookmark.ts:207-215 | on a page after the first, the first success event calls `advance` on the cursor without checking that it is non-null | an empty store, `fetchBookmark(2, "BookmarkedDateReverseChronologicalOrder")` throws in the handler and never settles | resolve an empty list, as for any other page past the end | not executed; high | BookmarkStore.FetchAsWritten (shown by BookmarkStoreProperties.EmptyStoreLaterPageNeverSettles) | BookmarkStore.Fetch (proved by BookmarkStoreProperties.FetchPastEndIsEmpty) |
| lib/client/bookmark.ts:211-215 | on a page after the first, the records of the earlier pages are skipped with one `advance` call, whose count is an `unsigned long` | a store holding one bookmark, `fetchBookmark(429496731, "BookmarkedDateReverseChronologicalOrder")`: the count 4294967300 makes `advance` throw, so the promise never settles | resolve an empty list, as for any other page past the end | not executed; medium | BookmarkStore.FetchAsWritten (shown by BookmarkStoreProperties.LargePageNeverSettles) | BookmarkStore.Fetch (proved by BookmarkStoreProperties.FetchPastEndIsEmpty) |

=== FILE: bookmark_order.dfy ===
/** Stored bookmark records and the four orders in which a cursor walks
    them: by auto-increment key (insertion order) or by the `published_at`
    index, each forwards ("next") or backwards ("prev"). */
module BookmarkOrder {
  import opened Recipes
  import opened SortingOrders

  /** A stored recipe under its auto-increment primary key. */
  datatype Record = Record(key: int, recipe: Recipe)

  /** Records as the object store keeps them: strictly ascending keys. */
  predicate KeysAscending(rs: seq<Record>) {
    forall i, j :: 0 <= i < j < |rs| ==> rs[i].key < rs[j].key
  }

  predicate DistinctKeys(rs: seq<Record>) {
    forall i, j :: 0 <= i < |rs| && 0 <= j < |rs| && i != j ==> rs[i].key != rs[j].key
  }

  /** Position order of the `published_at` index: by timestamp, and among
      equal timestamps by primary key. */
  predicate PubLess(a: Record, b: Record) {
    StrLess(a.recipe.publishedAt, b.recipe.publishedAt) ||
    (a.recipe.publishedAt == b.recipe.publishedAt && a.key < b.key)
  }

  /** `a` is visited strictly before `b` by a cursor opened for `order`. */
  predicate Precedes(order: SortingOrder, a: Record, b: Record) {
    match order
    case BookmarkedDateChronologicalOrder => a.key < b.key
    case BookmarkedDateReverseChronologicalOrder => b.key < a.key
    case PublishedDateChronologicalOrder => PubLess(a, b)
    case PublishedDateReverseChronologicalOrder => PubLess(b, a)
  }

  predicate SortedBy(order: SortingOrder, rs: seq<Record>) {
    forall i, j :: 0 <= i < j < |rs| ==> Precedes(order, rs[i], rs[j])
  }

  lemma KeysAscendingDistinct(rs: seq<Record>)
    requires KeysAscending(rs)
    ensures DistinctKeys(rs)
  {
    forall i, j | 0 <= i < |rs| && 0 <= j < |rs| && i != j
      ensures rs[i].key != rs[j].key
    {
      if i < j { assert rs[i].key < rs[j].key; } else { assert rs[j].key < rs[i].key; }
    }
  }

  lemma PubLessTransitive(a: Record, b: Record, c: Record)
    requires PubLess(a, b) && PubLess(b, c)
    ensures PubLess(a, c)
  {
    var pa, pb, pc := a.recipe.publishedAt, b.recipe.publishedAt, c.recipe.publishedAt;
    if StrLess(pa, pb) && StrLess(pb, pc) {
      StrLessTransitive(pa, pb, pc);
    }
  }

  lemma PubLessTotal(a: Record, b: Record)
    requires a.key != b.key
    ensures PubLess(a, b) || PubLess(b, a)
  {
    if a.recipe.publishedAt != b.recipe.publishedAt {
      StrLessTotal(a.recipe.publishedAt, b.recipe.publishedAt);
    }
  }

  lemma PubLessAsymmetric(a: Record, b: Record)
    requires PubLess(a, b)
    ensures !PubLess(b, a)
  {
    var pa, pb := a.recipe.publishedAt, b.recipe.publishedAt;
    if StrLess(pa, pb) {
      StrLessAsymmetric(pa, pb);
      if pa == pb { StrLessIrreflexive(pa); }
    } else if StrLess(pb, pa) {
      StrLessIrreflexive(pa);
    }
  }

  /** A record earlier in the index was not published after a later one. */
  lemma PubLessNotLater(a: Record, b: Record)
    requires PubLess(a, b)
    ensures !StrLess(b.recipe.publishedAt, a.recipe.publishedAt)
  {
    var pa, pb := a.recipe.publishedAt, b.recipe.publishedAt;
    if StrLess(pa, pb) {
      StrLessAsymmetric(pa, pb);
    } else {
      StrLessIrreflexive(pa);
    }
  }

  lemma PrecedesAsymmetric(order: SortingOrder, a: Record, b: Record)
    requires Precedes(order, a, b)
    ensures !Precedes(order, b, a)
  {
    match order
    case PublishedDateChronologicalOrder => PubLessAsymmetric(a, b);
    case PublishedDateReverseChronologicalOrder => PubLessAsymmetric(b, a);
    case _ =>
  }

  // ---------------------------------------------------------------------
  // Insertion sort by the `published_at` index position.

  function InsertByPublished(x: Record, s: seq<Record>): (r: seq<Record>)
    ensures multiset(r) == multiset(s) + multiset{x}
    ensures |r| == |s| + 1
  {
    if |s| == 0 then [x]
    else if PubLess(x, s[0]) then [x] + s
    else
      assert s == [s[0]] + s[1..];
      [s[0]] + InsertByPublished(x, s[1..])
  }

  function SortByPublished(s: seq<Record>): (r: seq<Record>)
    ensures multiset(r) == multiset(s)
    ensures |r| == |s|
  {
    if |s| == 0 then []
    else
      assert s == [s[0]] + s[1..];
      InsertByPublished(s[0], SortByPublished(s[1..]))
  }

  /** `x` placed in front of a sorted sequence it precedes. */
  lemma PrependSorted(x: Record, s: seq<Record>)
    requires SortedBy(PublishedDateChronologicalOrder, s)
    requires |s| > 0 && PubLess(x, s[0])
    ensures SortedBy(PublishedDateChronologicalOrder, [x] + s)
  {
    var r := [x] + s;
    forall i, j | 0 <= i < j < |r|
      ensures PubLess(r[i], r[j])
    {
      if i == 0 && j > 1 {
        PubLessTransitive(x, s[0], s[j - 1]);
      }
    }
  }

  /** `y` placed in front of a sorted sequence all of whose elements come
      from `others` or are `x`, where `y` precedes `x` and every record of
      `others`. */
  lemma PrependBelowAll(y: Record, x: Record, others: seq<Record>, t: seq<Record>)
    requires SortedBy(PublishedDateChronologicalOrder, t)
    requires multiset(t) == multiset(others) + multiset{x}
    requires PubLess(y, x)
    requires forall k :: 0 <= k < |others| ==> PubLess(y, others[k])
    ensures SortedBy(PublishedDateChronologicalOrder, [y] + t)
  {
    var r := [y] + t;
    forall i, j | 0 <= i < j < |r|
      ensures PubLess(r[i], r[j])
    {
      if i == 0 {
        var e := t[j - 1];
        assert e in multiset(t);
        if e != x {
          assert e in multiset(others);
          var m :| 0 <= m < |others| && others[m] == e;
        }
      }
    }
  }

  lemma {:induction false} InsertByPublishedSorted(x: Record, s: seq<Record>)
    requires SortedBy(PublishedDateChronologicalOrder, s)
    requires forall k :: 0 <= k < |s| ==> s[k].key != x.key
    ensures SortedBy(PublishedDateChronologicalOrder, InsertByPublished(x, s))
  {
    if |s| == 0 {
    } else if PubLess(x, s[0]) {
      PrependSorted(x, s);
    } else {
      PubLessTotal(x, s[0]);
      var tail := s[1..];
      SortedTail(PublishedDateChronologicalOrder, s);
      InsertByPublishedSorted(x, tail);
      PrependBelowAll(s[0], x, tail, InsertByPublished(x, tail));
    }
  }

  lemma {:induction false} SortByPublishedSorted(s: seq<Record>)
    requires DistinctKeys(s)
    ensures SortedBy(PublishedDateChronologicalOrder, SortByPublished(s))
  {
    if |s| > 0 {
      var tail := s[1..];
      assert DistinctKeys(tail) by {
        forall i, j | 0 <= i < |tail| && 0 <= j < |tail| && i != j
          ensures tail[i].key != tail[j].key
        {
          assert tail[i] == s[i + 1] && tail[j] == s[j + 1];
        }
      }
      SortByPublishedSorted(tail);
      var t := SortByPublished(tail);
      forall k | 0 <= k < |t|
        ensures t[k].key != s[0].key
      {
        assert t[k] in multiset(tail);
        var m :| 0 <= m < |tail| && tail[m] == t[k];
        assert s[m + 1] == t[k];
      }
      InsertByPublishedSorted(s[0], t);
    }
  }

  // ---------------------------------------------------------------------
  // Cursor views.

  function Reverse<T>(s: seq<T>): (r: seq<T>)
    ensures |r| == |s|
    ensures forall i :: 0 <= i < |s| ==> r[i] == s[|s| - 1 - i]
    ensures multiset(r) == multiset(s)
  {
    if |s| == 0 then []
    else
      assert s == [s[0]] + s[1..];
      Reverse(s[1..]) + [s[0]]
  }

  /** The records in the order a cursor for `order` visits them. */
  function RecordView(rs: seq<Record>, order: SortingOrder): (v: seq<Record>)
    ensures multiset(v) == multiset(rs)
    ensures |v| == |rs|
  {
    match order
    case BookmarkedDateChronologicalOrder => rs
    case BookmarkedDateReverseChronologicalOrder => Reverse(rs)
    case PublishedDateChronologicalOrder => SortByPublished(rs)
    case PublishedDateReverseChronologicalOrder => Reverse(SortByPublished(rs))
  }

  /** A sequence reversed is ordered by the flipped order. */
  lemma ReverseFlipsOrder(order: SortingOrder, flipped: SortingOrder, s: seq<Record>)
    requires SortedBy(order, s)
    requires forall a: Record, b: Record :: Precedes(order, a, b) ==> Precedes(flipped, b, a)
    ensures SortedBy(flipped, Reverse(s))
  {
    var v := Reverse(s);
    forall i, j | 0 <= i < j < |v|
      ensures Precedes(flipped, v[i], v[j])
    {
      assert v[i] == s[|s| - 1 - i] && v[j] == s[|s| - 1 - j];
      assert Precedes(order, s[|s| - 1 - j], s[|s| - 1 - i]);
    }
  }

  /** Every cursor view of a well-formed store is strictly ordered by the
      cursor's order. */
  lemma RecordViewSorted(rs: seq<Record>, order: SortingOrder)
    requires KeysAscending(rs)
    ensures SortedBy(order, RecordView(rs, order))
  {
    match order
    case BookmarkedDateChronologicalOrder =>
    case BookmarkedDateReverseChronologicalOrder =>
      ReverseFlipsOrder(BookmarkedDateChronologicalOrder, order, rs);
    case PublishedDateChronologicalOrder =>
      KeysAscendingDistinct(rs);
      SortByPublishedSorted(rs);
    case PublishedDateReverseChronologicalOrder =>
      KeysAscendingDistinct(rs);
      SortByPublishedSorted(rs);
      ReverseFlipsOrder(PublishedDateChronologicalOrder, order, SortByPublished(rs));
  }

  lemma SortedTail(order: SortingOrder, a: seq<Record>)
    requires SortedBy(order, a) && |a| > 0
    ensures SortedBy(order, a[1..])
  {
    var t := a[1..];
    forall i, j | 0 <= i < j < |t|
      ensures Precedes(order, t[i], t[j])
    {
      assert t[i] == a[i + 1] && t[j] == a[j + 1];
    }
  }

  lemma MultisetTail<T>(a: seq<T>, b: seq<T>)
    requires |a| > 0 && |b| > 0 && a[0] == b[0] && multiset(a) == multiset(b)
    ensures multiset(a[1..]) == multiset(b[1..])
  {
    assert a == [a[0]] + a[1..] && b == [b[0]] + b[1..];
    assert multiset(a[1..]) == multiset(a) - multiset([a[0]]);
    assert multiset(b[1..]) == multiset(b) - multiset([b[0]]);
  }

  /** Two strictly ordered arrangements of the same records start with the
      same record: each first record is in the other arrangement, so each
      precedes the other unless they are equal. */
  lemma SortedPermutationSameHead(order: SortingOrder, a: seq<Record>, b: seq<Record>)
    requires |a| > 0 && |b| > 0 && multiset(a) == multiset(b)
    requires SortedBy(order, a) && SortedBy(order, b)
    ensures a[0] == b[0]
  {
    if a[0] != b[0] {
      assert b[0] in multiset(a);
      var i :| 0 <= i < |a| && a[i] == b[0];
      assert a[0] in multiset(b);
      var j :| 0 <= j < |b| && b[j] == a[0];
      PrecedesAsymmetric(order, a[0], b[0]);
      assert false;
    }
  }

  /** Two arrangements of the same records that are both strictly ordered
      by the same cursor order are equal. */
  lemma {:induction false} SortedPermutationUnique(order: SortingOrder, a: seq<Record>, b: seq<Record>)
    requires multiset(a) == multiset(b)
    requires SortedBy(order, a) && SortedBy(order, b)
    ensures a == b
    decreases |a|
  {
    assert |a| == |multiset(a)| == |b|;
    if |a| > 0 {
      SortedPermutationSameHead(order, a, b);
      MultisetTail(a, b);
      SortedTail(order, a);
      SortedTail(order, b);
      SortedPermutationUnique(order, a[1..], b[1..]);
      assert a == [a[0]] + a[1..] && b == [b[0]] + b[1..];
    }
  }

  /** The cursor view is THE arrangement of the records strictly ordered by
      the cursor's order: any such arrangement equals it. */
  lemma RecordViewCharacterized(rs: seq<Record>, order: SortingOrder, v: seq<Record>)
    requires KeysAscending(rs)
    requires multiset(v) == multiset(rs) && SortedBy(order, v)
    ensures v == RecordView(rs, order)
  {
    RecordViewSorted(rs, order);
    SortedPermutationUnique(order, v, RecordView(rs, order));
  }

  function RecipesOf(rs: seq<Record>): (r: seq<Recipe>)
    ensures |r| == |rs|
    ensures forall i :: 0 <= i < |rs| ==> r[i] == rs[i].recipe
  {
    seq(|rs|, i requires 0 <= i < |rs| => rs[i].recipe)
  }
}

=== FILE: bookmark_page.dfy ===
/** The bookmark list page: it reads the page number and sort order from
    the query, asks the store for the neighbouring-page flags and one page
    of recipes, and shows a loading, error, list or not-found screen. */
module BookmarkPage {
  import opened Recipes
  import opened SortingOrders
  import opened BookmarkOrder
  import opened Paging
  import opened BookmarkStore
  import opened BookmarkStoreProperties

  datatype LoadingState = Loading | Error | Loaded | Reset

  /** The query parameters of a page link, before URL encoding. */
  datatype LinkParams = LinkParams(page: int, sortingOrder: string)

  /** The query as the page reads it. `page` is None when the parameter is
      missing or empty, otherwise the number it converts to;
      `sortingOrder` is None when the parameter is missing. */
  datatype Query = Query(page: Option<int>, sortingOrder: Option<string>)

  /** The page's state: loading state, recipes shown, the order the
      selector shows, and the parameters of the next and previous links. */
  datatype PageView = PageView(
    loading: LoadingState,
    recipes: seq<Recipe>,
    sortingOrder: string,
    next: Option<LinkParams>,
    prev: Option<LinkParams>
  )

  const InitialView: PageView := PageView(Loading, [], Name(DefaultOrder), None, None)

  /** The page number the query asks for; page 1 when it asks for none. */
  function PageNumber(q: Query): (page: int)
    ensures q.page.None? ==> page == 1
    ensures q.page.Some? ==> page == q.page.value
  {
    match q.page
    case None => 1
    case Some(n) => n
  }

  /** The order string the query asks for; the default order when the
      parameter is missing or empty. */
  function OrderParam(q: Query): (so: string)
    ensures so != ""
    ensures q.sortingOrder.Some? && q.sortingOrder.value != "" ==> so == q.sortingOrder.value
    ensures q.sortingOrder.None? || q.sortingOrder.value == "" ==> so == Name(DefaultOrder)
  {
    match q.sortingOrder
    case Some(so) => if so != "" then so else Name(DefaultOrder)
    case None => Name(DefaultOrder)
  }

  /** The query a link with these parameters produces when followed. */
  function QueryOf(l: LinkParams): Query {
    Query(Some(l.page), Some(l.sortingOrder))
  }

  /** The page's effect on every change of the path: show loading, open the
      store (on failure show the error and stop), set the selector, derive
      the previous and next links from the store, fetch the page and show
      it. A rejected neighbour query is not caught and stops the effect with
      the page still loading. The fetch is the one as written: on an empty
      store a page after the first never settles, and the page stays
      loading. */
  function Effect(s: Store, view: PageView, q: Query): (r: (Store, PageView))
    ensures Valid(s) ==> r.0.records == s.records
    ensures Initialize(s).reply.Rejected? ==>
      r.1 == view.(loading := Error)
    ensures Initialize(s).reply.Resolved? ==>
      && (r.1.loading == Loaded <==>
            !(PageNumber(q) > 1 && (|r.0.records| == 0 || Skip(PageNumber(q)) > MaxAdvance)))
      && (r.1.loading != Loaded ==> r.1.loading == Loading && r.1.recipes == view.recipes)
      && r.1.sortingOrder == OrderParam(q)
      && (r.1.loading == Loaded ==> Fetch(r.0, PageNumber(q), OrderParam(q)) == Resolved(r.1.recipes))
      && (r.1.prev.Some? <==> PageNumber(q) > 1)
      && (r.1.prev.Some? ==> r.1.prev.value == LinkParams(PageNumber(q) - 1, OrderParam(q)))
      && (r.1.next.Some? <==> PageNumber(q) * PageSize < |r.0.records|)
      && (r.1.next.Some? ==> r.1.next.value == LinkParams(PageNumber(q) + 1, OrderParam(q)))
  {
    var v0 := view.(loading := Loading);
    var init := Initialize(s);
    match init.reply
    case Rejected(_) => (init.store, v0.(loading := Error))
    case Pending => (init.store, v0)
    case Resolved(_) =>
      var st := init.store;
      var page := PageNumber(q);
      var so := OrderParam(q);
      var v1 := v0.(sortingOrder := so);
      match PrevOrNextPageExists(st, page)
      case Resolved(flags) =>
        var v2 := v1.(
          prev := if flags.0 then Some(LinkParams(page - 1, so)) else None,
          next := if flags.1 then Some(LinkParams(page + 1, so)) else None);
        (match FetchAsWritten(st, page, so)
         case Resolved(recipes) => (st, v2.(recipes := recipes, loading := Loaded))
         case Rejected(_) => (st, v2.(loading := Error))
         case Pending => (st, v2))
      case _ => (st, v1)
  }

  /** The link target when another order is selected: page 1 of that
      order. */
  function OnSortingOrderSelected(o: SortingOrder): (l: LinkParams)
    ensures l.page == 1
    ensures CursorOrder(l.sortingOrder) == o
  {
    NameRoundTrip(o);
    LinkParams(1, Name(o))
  }

  datatype Screen =
    | LoadingMessage
    | ErrorMessage
    | RecipeList(recipes: seq<Recipe>, next: Option<LinkParams>, prev: Option<LinkParams>)
    | NotFoundMessage

  /** What the page shows below the order selector. */
  function Render(v: PageView): (sc: Screen)
    ensures sc.RecipeList? <==> (v.loading == Loaded || v.loading == Reset) && |v.recipes| > 0
    ensures sc.NotFoundMessage? <==> (v.loading == Loaded || v.loading == Reset) && |v.recipes| == 0
    ensures sc.RecipeList? ==> sc == RecipeList(v.recipes, v.next, v.prev)
  {
    match v.loading
    case Loading => LoadingMessage
    case Error => ErrorMessage
    case _ => if |v.recipes| > 0 then RecipeList(v.recipes, v.next, v.prev) else NotFoundMessage
  }

  // ---------------------------------------------------------------------
  // Properties

  /** Following a link reads back exactly its page and order. This holds by
      the definition of `QueryOf`, which keeps links as structured pairs:
      URL encoding and the `Number` conversion of the page are not part of
      this model. */
  lemma LinkRoundTrip(l: LinkParams)
    requires l.sortingOrder != ""
    ensures PageNumber(QueryOf(l)) == l.page
    ensures OrderParam(QueryOf(l)) == l.sortingOrder
  {
  }

  /** A bare visit to the page shows page 1 in reverse bookmarked-date
      order: the most recent bookmark first. */
  lemma BareVisitShowsNewestFirst(s: Store, view: PageView)
    requires Valid(s) && s.version == DbVersion && |s.records| > 0
    ensures var (t, v) := Effect(s, view, Query(None, None));
      v.loading == Loaded && v.prev == None && |v.recipes| > 0 &&
      v.recipes[0] == s.records[|s.records| - 1].recipe
  {
    var t := Initialize(s).store;
    InitializePreservesValid(s);
    NewestBookmarkFirst(t);
  }

  /** Before the effect runs the page shows the loading message. */
  lemma InitialViewShowsLoading()
    ensures Render(InitialView) == LoadingMessage
    ensures InitialView.sortingOrder == Name(DefaultOrder)
  {
  }

  /** A failed initialization shows the error screen and fetches nothing:
      the recipes and links stay as they were. */
  lemma FailedInitShowsError(s: Store, view: PageView, q: Query)
    requires !s.open && s.version > DbVersion
    ensures Render(Effect(s, view, q).1) == ErrorMessage
    ensures Effect(s, view, q).1.recipes == view.recipes
  {
  }

  /** On an empty store a page after the first never finishes loading: the
      fetch as written does not settle, so the loading message stays. */
  lemma EmptyStoreLaterPageStaysLoading(s: Store, view: PageView, q: Query)
    requires Valid(s) && s.version <= DbVersion && |s.records| == 0 && PageNumber(q) > 1
    ensures Render(Effect(s, view, q).1) == LoadingMessage
  {
  }

  /** On an openable store the next link is offered exactly when following
      it shows at least one recipe. */
  lemma NextLinkLeadsToRecipes(s: Store, view: PageView, q: Query)
    requires Valid(s) && s.version <= DbVersion && (PageNumber(q) >= 0 || |s.records| > 0)
    ensures var (t, v) := Effect(s, view, q);
      (v.next.Some? <==> |PageOf(ViewOf(t, OrderParam(q)), PageNumber(q) + 1)| > 0) &&
      (v.next.Some? && PageNumber(q) * PageSize <= MaxAdvance ==>
        Render(Effect(t, v, QueryOf(v.next.value)).1).RecipeList?) &&
      (v.next.Some? && PageNumber(q) * PageSize > MaxAdvance ==>
        Render(Effect(t, v, QueryOf(v.next.value)).1) == LoadingMessage)
  {
    var (t, v) := Effect(s, view, q);
    var page := PageNumber(q);
    var so := OrderParam(q);
    NextFlagIffNextPageHasRecipes(t, page, so);
    if v.next.Some? && page * PageSize <= MaxAdvance {
      assert Effect(t, v, QueryOf(v.next.value)).1.recipes == Fetch(t, page + 1, so).value;
    }
  }

  /** Choosing an order from the selector shows page 1 of the store in that
      order, with no previous link. */
  lemma SelectingOrderShowsFirstPage(s: Store, view: PageView, o: SortingOrder)
    requires Valid(s) && s.open
    ensures var (t, v) := Effect(s, view, QueryOf(OnSortingOrderSelected(o)));
      v.prev == None && v.sortingOrder == Name(o) &&
      v.recipes == PageOf(RecipesOf(RecordView(s.records, o)), 1)
  {
    NameRoundTrip(o);
  }
}

=== FILE: bookmark_store.dfy ===
/** The client-side bookmark store: one IndexedDB object store with an
    auto-increment primary key, a unique index on the recipe id and a
    non-unique index on `published_at`, behind a module-level handle that is
    opened once per page load. Every operation is an atomic step on an
    immutable store value returning the new store and the promise's fate. */
module BookmarkStore {
  import opened Recipes
  import opened SortingOrders
  import opened BookmarkOrder
  import opened Paging

  /** Schema version the client opens the database with. */
  const DbVersion: nat := 1

  /** First key the auto-increment key generator hands out. */
  const FirstKey: int := 1

  /** Largest key a key generator hands out (2^53); past it every insert
      that needs a generated key fails with a ConstraintError (section 2.11,
      "Key generators", of the Indexed Database API). */
  const MaxGeneratedKey: int := 0x20_0000_0000_0000

  /** Largest count `IDBCursor.advance` accepts: its argument is an
      `[EnforceRange] unsigned long` in the Indexed Database API, so a larger
      count throws a TypeError. */
  const MaxAdvance: int := 0xFFFF_FFFF

  datatype StoreError =
    | NotInitialized   // the handle was never opened in this page load
    | ConstraintError  // the unique `id` index or the key generator refused
    | VersionError     // the persisted database is newer than DbVersion

  /** What becomes of the promise an operation returns. `Pending` is a
      promise that never settles: an exception was thrown inside a request's
      success handler, which aborts the transaction and skips resolve. */
  datatype Reply<+T> = Resolved(value: T) | Rejected(error: StoreError) | Pending

  /** `open` is the module-level handle; `version`, `records` and `nextKey`
      persist across page loads (`version` 0: never created). */
  datatype Store = Store(open: bool, version: nat, records: seq<Record>, nextKey: int)

  datatype Step<+T> = Step(store: Store, reply: Reply<T>)

  /** A browser that has never visited the site. */
  const NeverOpened: Store := Store(false, 0, [], FirstKey)

  predicate UniqueIds(rs: seq<Record>) {
    forall i, j :: 0 <= i < j < |rs| ==> rs[i].recipe.id != rs[j].recipe.id
  }

  /** What the database and the handle guarantee between operations. */
  predicate Valid(s: Store) {
    && (s.open ==> s.version == DbVersion)
    && (s.version == 0 ==> s.records == [] && s.nextKey == FirstKey)
    && FirstKey <= s.nextKey <= MaxGeneratedKey + 1
    && KeysAscending(s.records)
    && (forall i :: 0 <= i < |s.records| ==> FirstKey <= s.records[i].key < s.nextKey)
    && UniqueIds(s.records)
  }

  predicate Contains(rs: seq<Record>, id: int) {
    exists i :: 0 <= i < |rs| && rs[i].recipe.id == id
  }

  /** Position of the first record with recipe id `id`: what a cursor on
      the `id` index restricted to `id` lands on. */
  function FindId(rs: seq<Record>, id: int): (r: Option<nat>)
    ensures r.Some? ==> r.value < |rs| && rs[r.value].recipe.id == id
    ensures r.Some? ==> forall k :: 0 <= k < r.value ==> rs[k].recipe.id != id
    ensures r.None? <==> !Contains(rs, id)
  {
    if |rs| == 0 then None
    else if rs[0].recipe.id == id then Some(0)
    else match FindId(rs[1..], id)
      case None => None
      case Some(k) => Some(k + 1)
  }

  /** A new page load: the handle is gone, the persisted data is not. */
  function Reload(s: Store): (r: Store)
    ensures !r.open
    ensures r.records == s.records && r.version == s.version && r.nextKey == s.nextKey
  {
    s.(open := false)
  }

  // ---------------------------------------------------------------------
  // Operations

  /** initializeBookmark: resolves false when the handle is already open;
      otherwise opens the database (recreating the object store empty when
      the persisted version is older) and resolves true. */
  function Initialize(s: Store): (r: Step<bool>)
    ensures r.reply == Resolved(false) <==> s.open
    ensures r.reply.Resolved? ==> r.store.open
    ensures r.reply.Rejected? <==> !s.open && s.version > DbVersion
    ensures r.reply.Rejected? ==> r.store == s && r.reply.error == VersionError
    ensures !r.reply.Pending?
    ensures s.version == DbVersion ==> r.store.records == s.records && r.store.nextKey == s.nextKey
    ensures !s.open && s.version < DbVersion ==> r.store.records == [] && r.store.nextKey == FirstKey
    ensures s.open ==> r == Step(s, Resolved(false))
    ensures r.reply == Resolved(true) ==> r.store.version == DbVersion
  {
    if s.open then Step(s, Resolved(false))
    else if s.version > DbVersion then Step(s, Rejected(VersionError))
    else if s.version < DbVersion then Step(Store(true, DbVersion, [], FirstKey), Resolved(true))
    else Step(s.(open := true), Resolved(true))
  }

  /** addBookmark: stores the recipe under the next generated key. */
  function Add(s: Store, x: Recipe): (r: Step<()>)
    ensures !s.open ==> r == Step(s, Rejected(NotInitialized))
    ensures s.open && Contains(s.records, x.id) ==> r == Step(s, Rejected(ConstraintError))
    ensures r.reply.Resolved? <==> s.open && !Contains(s.records, x.id) && s.nextKey <= MaxGeneratedKey
    ensures !r.reply.Resolved? ==> r.store == s
    ensures !r.reply.Pending?
    ensures r.reply.Resolved? ==>
      && |r.store.records| == |s.records| + 1
      && r.store.records[..|s.records|] == s.records
      && r.store.records[|s.records|] == Record(s.nextKey, x)
      && Contains(r.store.records, x.id)
    ensures r.reply.Resolved? ==>
      r.store.open && r.store.version == s.version && r.store.nextKey == s.nextKey + 1
  {
    if !s.open then Step(s, Rejected(NotInitialized))
    else if FindId(s.records, x.id).Some? then Step(s, Rejected(ConstraintError))
    else if s.nextKey > MaxGeneratedKey then Step(s, Rejected(ConstraintError))
    else
      var rs := s.records + [Record(s.nextKey, x)];
      assert rs[|s.records|].recipe.id == x.id;
      Step(s.(records := rs, nextKey := s.nextKey + 1), Resolved(()))
  }

  /** updateBookmark: overwrites the value of the record with `x.id`,
      keeping its key. With no such record the cursor is null, the update
      call throws inside the success handler and the promise never
      settles. */
  function Update(s: Store, x: Recipe): (r: Step<()>)
    ensures !s.open ==> r == Step(s, Rejected(NotInitialized))
    ensures s.open && !Contains(s.records, x.id) ==> r == Step(s, Pending)
    ensures r.reply.Resolved? <==> s.open && Contains(s.records, x.id)
    ensures r.reply.Resolved? ==>
      exists i :: 0 <= i < |s.records| && s.records[i].recipe.id == x.id &&
        r.store.records == s.records[i := Record(s.records[i].key, x)]
    ensures r.store.nextKey == s.nextKey && r.store.open == s.open && r.store.version == s.version
  {
    if !s.open then Step(s, Rejected(NotInitialized))
    else match FindId(s.records, x.id)
      case None => Step(s, Pending)
      case Some(i) =>
        Step(s.(records := s.records[i := Record(s.records[i].key, x)]), Resolved(()))
  }

  /** removeBookmark: deletes the record with recipe id `id`, if any, and
      resolves whether one was deleted. */
  function Remove(s: Store, id: int): (r: Step<bool>)
    ensures !s.open ==> r == Step(s, Rejected(NotInitialized))
    ensures s.open ==> r.reply == Resolved(Contains(s.records, id))
    ensures r.reply != Resolved(true) ==> r.store == s
    ensures r.reply == Resolved(true) ==>
      exists i :: 0 <= i < |s.records| && s.records[i].recipe.id == id &&
        r.store.records == s.records[..i] + s.records[i + 1..]
    ensures r.store.nextKey == s.nextKey && r.store.open == s.open && r.store.version == s.version
  {
    if !s.open then Step(s, Rejected(NotInitialized))
    else match FindId(s.records, id)
      case None => Step(s, Resolved(false))
      case Some(i) => Step(s.(records := s.records[..i] + s.records[i + 1..]), Resolved(true))
  }

  /** isInBookmark: a read-only count on the `id` index, compared with 1. */
  function IsIn(s: Store, id: int): (r: Reply<bool>)
    ensures !s.open ==> r == Rejected(NotInitialized)
    ensures s.open ==> r.Resolved? && (r.value <==> exists i :: 0 <= i < |s.records| && s.records[i].recipe.id == id)
  {
    if !s.open then Rejected(NotInitialized)
    else Resolved(FindId(s.records, id).Some?)
  }

  /** countBookmark */
  function Count(s: Store): (r: Reply<nat>)
    ensures !s.open ==> r == Rejected(NotInitialized)
    ensures s.open ==> r == Resolved(|s.records|)
  {
    if !s.open then Rejected(NotInitialized) else Resolved(|s.records|)
  }

  /** clearBookmark: empties the object store; the key generator is not
      reset, so later bookmarks still get larger keys. */
  function Clear(s: Store): (r: Step<()>)
    ensures !s.open ==> r == Step(s, Rejected(NotInitialized))
    ensures s.open ==> r.reply.Resolved? && r.store.records == []
    ensures r.store.nextKey == s.nextKey && r.store.open == s.open && r.store.version == s.version
  {
    if !s.open then Step(s, Rejected(NotInitialized))
    else Step(s.(records := []), Resolved(()))
  }

  /** toggleBookmark: removes the recipe and resolves false when it is
      bookmarked, adds it and resolves true otherwise. The remove or add is
      started but not awaited, so its own failure is not reported. */
  function Toggle(s: Store, x: Recipe): (r: Step<bool>)
    ensures !s.open ==> r == Step(s, Rejected(NotInitialized))
    ensures s.open ==> r.reply == Resolved(!Contains(s.records, x.id))
    ensures s.open ==> r.store == (if Contains(s.records, x.id) then Remove(s, x.id).store else Add(s, x).store)
  {
    if !s.open then Step(s, Rejected(NotInitialized))
    else
      match IsIn(s, x.id)
      case Resolved(true) => Step(Remove(s, x.id).store, Resolved(false))
      case _ => Step(Add(s, x).store, Resolved(true))
  }

  /** prevOrNextPageExists: [page > 1, page < ceil(count / 10)]; rejects
      when the count does. */
  function PrevOrNextPageExists(s: Store, page: int): (r: Reply<(bool, bool)>)
    ensures !s.open ==> r == Rejected(NotInitialized)
    ensures s.open ==> r.Resolved? && (r.value.0 <==> page > 1)
    ensures s.open ==> r.Resolved? && (r.value.1 <==> page * PageSize < |s.records|)
  {
    if !s.open then Rejected(NotInitialized)
    else
      PageCountIsCeiling(|s.records|);
      Resolved(PrevOrNext(page, |s.records|))
  }

  // ---------------------------------------------------------------------
  // Paged listing

  /** The recipes in the order the cursor for a raw order string visits
      them. */
  function ViewOf(s: Store, rawOrder: string): (v: seq<Recipe>)
    ensures |v| == |s.records|
  {
    RecipesOf(RecordView(s.records, CursorOrder(rawOrder)))
  }

  /** fetchBookmark as written: on a page after the first, the first
      success event advances the cursor by the records of the earlier
      pages. When the store is empty that cursor is null, and when the count
      exceeds MaxAdvance the call rejects it; either way the handler throws
      and the promise never settles. */
  function FetchAsWritten(s: Store, page: int, rawOrder: string): (r: Reply<seq<Recipe>>)
    ensures !s.open ==> r == Rejected(NotInitialized)
    ensures r.Pending? <==> s.open && page > 1 && (|s.records| == 0 || Skip(page) > MaxAdvance)
    ensures !r.Pending? ==> r == Fetch(s, page, rawOrder)
  {
    if !s.open then Rejected(NotInitialized)
    else if page > 1 && (|s.records| == 0 || Skip(page) > MaxAdvance) then Pending
    else Resolved(PageOf(ViewOf(s, rawOrder), page))
  }

  /** fetchBookmark, event by event: position `pos` of the cursor in the
      view (at or past the end: the cursor is null), the `requireAdvance`
      flag, and the recipes collected so far. */
  method FetchByCursor(s: Store, page: int, rawOrder: string) returns (r: Reply<seq<Recipe>>)
    ensures r == FetchAsWritten(s, page, rawOrder)
  {
    if !s.open {
      return Rejected(NotInitialized);
    }
    var view := ViewOf(s, rawOrder);
    var pos := 0;
    var requireAdvance := page > 1;
    if requireAdvance {
      if pos >= |view| || (page - 1) * PageSize > MaxAdvance {
        return Pending;
      }
      pos := pos + (page - 1) * PageSize;
      requireAdvance := false;
    }
    var recipes := CollectFrom(view, page, pos);
    return Resolved(recipes);
  }

  /** The success events after the advance: with the cursor at `start`,
      collect records while the cursor is non-null and fewer than a page
      are held. */
  method CollectFrom(view: seq<Recipe>, page: int, start: int) returns (recipes: seq<Recipe>)
    requires start == Skip(page)
    ensures recipes == PageOf(view, page)
  {
    recipes := [];
    var pos := start;
    while pos < |view| && |recipes| < PageSize
      invariant pos == start + |recipes|
      invariant |recipes| <= PageSize
      invariant |recipes| > 0 ==> pos <= |view|
      invariant forall i :: 0 <= i < |recipes| ==> start + i < |view| && recipes[i] == view[start + i]
      decreases |view| - pos
    {
      recipes := recipes + [view[pos]];
      pos := pos + 1;
    }
    RunIsPage(view, page, recipes);
  }


  /** fetchBookmark as evidently intended: a page past the end, of an empty
      store too, is empty. */
  function Fetch(s: Store, page: int, rawOrder: string): (r: Reply<seq<Recipe>>)
    ensures !s.open ==> r == Rejected(NotInitialized)
    ensures s.open ==> r.Resolved?
    ensures r.Resolved? ==> |r.value| <= PageSize
    ensures r.Resolved? ==> forall i :: 0 <= i < |r.value| ==>
      Skip(page) + i < |s.records| && r.value[i] == ViewOf(s, rawOrder)[Skip(page) + i]
    ensures r.Resolved? && Skip(page) < |s.records| ==>
      |r.value| == Min(PageSize, |s.records| - Skip(page))
    ensures r.Resolved? && Skip(page) >= |s.records| ==> r.value == []
  {
    if !s.open then Rejected(NotInitialized)
    else Resolved(PageOf(ViewOf(s, rawOrder), page))
  }
}

=== FILE: bookmark_store_properties.dfy ===
/** What the bookmark store's operations guarantee across calls: the
    invariant they keep, the membership and count changes they make, and
    what the paged listing returns. */
module BookmarkStoreProperties {
  import opened Recipes
  import opened SortingOrders
  import opened BookmarkOrder
  import opened Paging
  import opened BookmarkStore

  // ---------------------------------------------------------------------
  // Handle lifecycle

  /** Before initializeBookmark has succeeded in this page load, every
      operation rejects with "not initialized" and changes nothing. */
  lemma UninitializedRejectsEverything(s: Store, x: Recipe, id: int, page: int, rawOrder: string)
    requires !s.open
    ensures Add(s, x) == Step(s, Rejected(NotInitialized))
    ensures Update(s, x) == Step(s, Rejected(NotInitialized))
    ensures Remove(s, id) == Step(s, Rejected(NotInitialized))
    ensures Clear(s) == Step(s, Rejected(NotInitialized))
    ensures Toggle(s, x) == Step(s, Rejected(NotInitialized))
    ensures IsIn(s, id) == Rejected(NotInitialized)
    ensures Count(s) == Rejected(NotInitialized)
    ensures Fetch(s, page, rawOrder) == Rejected(NotInitialized)
    ensures FetchAsWritten(s, page, rawOrder) == Rejected(NotInitialized)
    ensures PrevOrNextPageExists(s, page) == Rejected(NotInitialized)
  {
  }

  /** The first open on a new browser creates an empty, valid store and
      resolves true; a second call resolves false and changes nothing. */
  lemma FirstOpenThenAlreadyOpen()
    ensures Initialize(NeverOpened).reply == Resolved(true)
    ensures Valid(Initialize(NeverOpened).store)
    ensures Count(Initialize(NeverOpened).store) == Resolved(0)
    ensures Initialize(Initialize(NeverOpened).store) == Step(Initialize(NeverOpened).store, Resolved(false))
  {
  }

  /** A later page load opens the same database again: initialize resolves
      true and every persisted bookmark is still there, under its key. */
  lemma ReloadKeepsBookmarks(s: Store)
    requires Valid(s) && s.version == DbVersion
    ensures Initialize(Reload(s)) == Step(s.(open := true), Resolved(true))
  {
  }

  lemma InitializePreservesValid(s: Store)
    requires Valid(s)
    ensures Valid(Initialize(s).store)
    ensures Valid(Reload(s))
  {
  }

  // ---------------------------------------------------------------------
  // Add, remove, update, clear

  /** A successful add appends one record whose key is larger than every
      key already stored, the count grows by exactly one, and the store
      stays valid (recipe ids stay unique). */
  lemma AddAppendsWithFreshKey(s: Store, x: Recipe)
    requires Valid(s)
    requires Add(s, x).reply.Resolved?
    ensures Valid(Add(s, x).store)
    ensures forall i :: 0 <= i < |s.records| ==> s.records[i].key < Add(s, x).store.records[|s.records|].key
    ensures Count(Add(s, x).store) == Resolved(|s.records| + 1)
    ensures IsIn(Add(s, x).store, x.id) == Resolved(true)
  {
    var t := Add(s, x).store;
    var n := |s.records|;
    assert t.records == s.records + [Record(s.nextKey, x)] by {
      assert t.records[..n] == s.records;
      assert t.records == t.records[..n] + [t.records[n]];
    }
    assert UniqueIds(t.records) by {
      forall i, j | 0 <= i < j < |t.records|
        ensures t.records[i].recipe.id != t.records[j].recipe.id
      {
        if j == n {
          assert t.records[i] == s.records[i];
        }
      }
    }
  }

  /** Adding a recipe whose id is already bookmarked is refused by the
      unique index and leaves the store as it was. */
  lemma AddDuplicateRejected(s: Store, x: Recipe)
    requires s.open && IsIn(s, x.id) == Resolved(true)
    ensures Add(s, x) == Step(s, Rejected(ConstraintError))
    ensures Count(Add(s, x).store) == Count(s)
  {
  }

  lemma RemoveAtIndexes(rs: seq<Record>, i: int)
    requires 0 <= i < |rs|
    ensures |rs[..i] + rs[i + 1..]| == |rs| - 1
    ensures forall k :: 0 <= k < i ==> (rs[..i] + rs[i + 1..])[k] == rs[k]
    ensures forall k :: i < k < |rs| ==> (rs[..i] + rs[i + 1..])[k - 1] == rs[k]
  {
  }

  lemma RemoveAtKeepsOrderAndIds(rs: seq<Record>, i: int)
    requires 0 <= i < |rs| && KeysAscending(rs) && UniqueIds(rs)
    ensures KeysAscending(rs[..i] + rs[i + 1..]) && UniqueIds(rs[..i] + rs[i + 1..])
  {
    var t := rs[..i] + rs[i + 1..];
    RemoveAtIndexes(rs, i);
    forall a, b | 0 <= a < b < |t|
      ensures t[a].key < t[b].key && t[a].recipe.id != t[b].recipe.id
    {
      var a', b' := if a < i then a else a + 1, if b < i then b else b + 1;
      assert t[a] == rs[a'] && t[b] == rs[b'] && a' < b';
    }
  }

  lemma RemoveAtMembership(rs: seq<Record>, i: int, id: int)
    requires 0 <= i < |rs| && UniqueIds(rs)
    ensures Contains(rs[..i] + rs[i + 1..], id) <==> Contains(rs, id) && id != rs[i].recipe.id
  {
    var t := rs[..i] + rs[i + 1..];
    RemoveAtIndexes(rs, i);
    if Contains(t, id) {
      var k :| 0 <= k < |t| && t[k].recipe.id == id;
      var k' := if k < i then k else k + 1;
      assert rs[k'] == t[k] && k' != i;
    }
    if Contains(rs, id) && id != rs[i].recipe.id {
      var k :| 0 <= k < |rs| && rs[k].recipe.id == id;
      assert t[if k < i then k else k - 1] == rs[k];
    }
  }

  /** Removing the record at position i keeps the store's shape: keys
      ascending, ids unique, and every other id still present. */
  lemma RemoveAtKeepsShape(s: Store, i: int)
    requires Valid(s) && 0 <= i < |s.records|
    ensures Valid(s.(records := s.records[..i] + s.records[i + 1..]))
    ensures forall id :: Contains(s.records[..i] + s.records[i + 1..], id) <==>
      Contains(s.records, id) && id != s.records[i].recipe.id
  {
    RemoveAtIndexes(s.records, i);
    RemoveAtKeepsOrderAndIds(s.records, i);
    forall id
      ensures Contains(s.records[..i] + s.records[i + 1..], id) <==>
        Contains(s.records, id) && id != s.records[i].recipe.id
    {
      RemoveAtMembership(s.records, i, id);
    }
  }

  /** removeBookmark on a bookmarked id deletes exactly that record: the id
      is gone, every other id stays, the count drops by one; on an id that is
      not bookmarked it resolves false and changes nothing. */
  lemma RemoveDeletesExactlyOne(s: Store, id: int)
    requires Valid(s) && s.open
    ensures Valid(Remove(s, id).store)
    ensures Remove(s, id).reply == Resolved(true) ==>
      && IsIn(Remove(s, id).store, id) == Resolved(false)
      && Count(Remove(s, id).store) == Resolved(|s.records| - 1)
      && (forall other :: other != id ==> IsIn(Remove(s, id).store, other) == IsIn(s, other))
    ensures Remove(s, id).reply == Resolved(false) ==> Remove(s, id).store == s
  {
    var r := Remove(s, id);
    if r.reply == Resolved(true) {
      var i :| 0 <= i < |s.records| && s.records[i].recipe.id == id &&
        r.store.records == s.records[..i] + s.records[i + 1..];
      RemoveAtKeepsShape(s, i);
    }
  }

  /** updateBookmark on a bookmarked recipe replaces only that record's
      value: every key, and so every position, stays; the store stays
      valid. */
  lemma UpdateKeepsKeys(s: Store, x: Recipe)
    requires Valid(s) && s.open && IsIn(s, x.id) == Resolved(true)
    ensures Update(s, x).reply == Resolved(())
    ensures Valid(Update(s, x).store)
    ensures |Update(s, x).store.records| == |s.records|
    ensures forall k :: 0 <= k < |s.records| ==> Update(s, x).store.records[k].key == s.records[k].key
    ensures forall k :: 0 <= k < |s.records| && s.records[k].recipe.id != x.id ==>
      Update(s, x).store.records[k] == s.records[k]
  {
    var t := Update(s, x).store;
    var i :| 0 <= i < |s.records| && s.records[i].recipe.id == x.id &&
      t.records == s.records[i := Record(s.records[i].key, x)];
    assert forall k :: 0 <= k < |t.records| ==> t.records[k].recipe.id == s.records[k].recipe.id;
  }

  /** clearBookmark empties the store but keeps the key generator, so a
      bookmark added afterwards gets a key larger than any key the store
      ever handed out. */
  lemma ClearKeepsKeyGenerator(s: Store, x: Recipe)
    requires Valid(s) && s.open && s.nextKey <= MaxGeneratedKey
    ensures Valid(Clear(s).store)
    ensures Count(Clear(s).store) == Resolved(0)
    ensures Add(Clear(s).store, x).reply.Resolved?
    ensures forall i :: 0 <= i < |s.records| ==> s.records[i].key < Add(Clear(s).store, x).store.records[0].key
  {
  }

  // ---------------------------------------------------------------------
  // Toggle

  /** toggleBookmark flips membership and reports the new membership; the
      count moves by exactly one. (While the key generator still has keys:
      past it the add fails unobserved and toggle still resolves true.) */
  lemma ToggleFlipsMembership(s: Store, x: Recipe)
    requires Valid(s) && s.open && s.nextKey <= MaxGeneratedKey
    ensures Valid(Toggle(s, x).store)
    ensures IsIn(Toggle(s, x).store, x.id) == Resolved(!Contains(s.records, x.id))
    ensures Toggle(s, x).reply == IsIn(Toggle(s, x).store, x.id)
    ensures |Toggle(s, x).store.records| == |s.records| + (if Contains(s.records, x.id) then -1 else 1)
    ensures Toggle(s, x).store.open
    ensures forall other :: other != x.id ==> IsIn(Toggle(s, x).store, other) == IsIn(s, other)
  {
    if Contains(s.records, x.id) {
      RemoveDeletesExactlyOne(s, x.id);
    } else {
      AddAppendsWithFreshKey(s, x);
      assert Add(s, x).store.records == s.records + [Record(s.nextKey, x)];
    }
  }

  /** Toggling twice restores membership and count. */
  lemma ToggleTwiceRestores(s: Store, x: Recipe)
    requires Valid(s) && s.open && s.nextKey <= MaxGeneratedKey
    ensures Contains(Toggle(Toggle(s, x).store, x).store.records, x.id) == Contains(s.records, x.id)
    ensures |Toggle(Toggle(s, x).store, x).store.records| == |s.records|
    ensures Toggle(Toggle(s, x).store, x).reply == Resolved(Contains(s.records, x.id))
  {
    ToggleFlipsMembership(s, x);
    var t := Toggle(s, x).store;
    if Contains(s.records, x.id) {
      ToggleFlipsMembership(t, x);
    } else {
      // The second toggle removes, which needs no fresh key.
      assert Contains(t.records, x.id);
      RemoveDeletesExactlyOne(t, x.id);
    }
  }

  /** With the key generator exhausted, toggling an absent recipe still
      resolves true although nothing was added: the add is not awaited. */
  lemma ToggleReportsUnobservedAddFailure(s: Store, x: Recipe)
    requires s.open && !Contains(s.records, x.id) && s.nextKey > MaxGeneratedKey
    ensures Toggle(s, x) == Step(s, Resolved(true))
    ensures !Contains(Toggle(s, x).store.records, x.id)
  {
  }

  // ---------------------------------------------------------------------
  // Paged listing

  /** As written, asking an empty store for any page after the first never
      settles: the cursor to advance is null. */
  lemma EmptyStoreLaterPageNeverSettles(rawOrder: string)
    ensures FetchAsWritten(Initialize(NeverOpened).store, 2, rawOrder) == Pending
    ensures Fetch(Initialize(NeverOpened).store, 2, rawOrder) == Resolved([])
  {
  }

  /** As written, a page whose skipped records exceed what `advance` accepts
      never settles either, even on a store holding a bookmark; the
      corrected fetch resolves an empty page. */
  lemma LargePageNeverSettles(s: Store, rawOrder: string)
    requires s.open && |s.records| == 1
    ensures FetchAsWritten(s, 429496731, rawOrder) == Pending
    ensures FetchAsWritten(s, 429496730, rawOrder) == Resolved([])
    ensures Fetch(s, 429496731, rawOrder) == Resolved([])
  {
  }

  /** Wherever the written fetch settles, it agrees with the corrected one. */
  lemma FetchAgreesWhereSettled(s: Store, page: int, rawOrder: string)
    requires !FetchAsWritten(s, page, rawOrder).Pending?
    ensures FetchAsWritten(s, page, rawOrder) == Fetch(s, page, rawOrder)
  {
  }

  /** A page past the last one is empty, not an error, whatever the store
      holds. */
  lemma FetchPastEndIsEmpty(s: Store, page: int, rawOrder: string)
    requires s.open && page > PageCount(|s.records|) && page >= 1
    ensures Fetch(s, page, rawOrder) == Resolved([])
  {
    PageNonEmptyIffInRange(ViewOf(s, rawOrder), page);
  }

  /** The page list is the cursor view of all bookmarks: it holds every
      bookmarked recipe once and is strictly ordered by the cursor. */
  lemma ViewIsOrderedPermutation(s: Store, rawOrder: string)
    requires Valid(s)
    ensures multiset(RecordView(s.records, CursorOrder(rawOrder))) == multiset(s.records)
    ensures SortedBy(CursorOrder(rawOrder), RecordView(s.records, CursorOrder(rawOrder)))
    ensures ViewOf(s, rawOrder) == RecipesOf(RecordView(s.records, CursorOrder(rawOrder)))
  {
    RecordViewSorted(s.records, CursorOrder(rawOrder));
  }

  /** Fetching pages 1 to PageCount in turn lists every bookmark exactly
      once, in cursor order. */
  lemma FetchPagesCoverStore(s: Store, rawOrder: string)
    requires s.open
    ensures Pages(ViewOf(s, rawOrder), PageCount(|s.records|)) == ViewOf(s, rawOrder)
    ensures forall p :: 1 <= p ==> Fetch(s, p, rawOrder) == Resolved(PageOf(ViewOf(s, rawOrder), p))
  {
    PagesCoverView(ViewOf(s, rawOrder));
  }

  /** In the reverse bookmarked-date order, page 1 starts with the most
      recently added bookmark. */
  lemma NewestBookmarkFirst(s: Store)
    requires Valid(s) && s.open && |s.records| > 0
    ensures var r := Fetch(s, 1, Name(BookmarkedDateReverseChronologicalOrder));
      r.Resolved? && |r.value| > 0 && r.value[0] == s.records[|s.records| - 1].recipe
    ensures forall i :: 0 <= i < |s.records| - 1 ==> s.records[i].key < s.records[|s.records| - 1].key
  {
    NameRoundTrip(BookmarkedDateReverseChronologicalOrder);
  }

  /** In the chronological publish order, nothing on a later page was
      published before anything on an earlier page. */
  lemma PublishedOrderAcrossPages(s: Store, p: int, q: int, i: int, j: int)
    requires Valid(s) && s.open && 1 <= p < q
    requires var a := Fetch(s, p, Name(PublishedDateChronologicalOrder));
      var b := Fetch(s, q, Name(PublishedDateChronologicalOrder));
      a.Resolved? && b.Resolved? && 0 <= i < |a.value| && 0 <= j < |b.value|
    ensures !StrLess(Fetch(s, q, Name(PublishedDateChronologicalOrder)).value[j].publishedAt,
                     Fetch(s, p, Name(PublishedDateChronologicalOrder)).value[i].publishedAt)
  {
    var o := PublishedDateChronologicalOrder;
    NameRoundTrip(o);
    RecordViewSorted(s.records, o);
    SortedPagesInOrder(RecordView(s.records, o), p, q, i, j);
  }

  /** Within a strictly publish-ordered view, an entry on an earlier page
      was not published after an entry on a later page. */
  lemma SortedPagesInOrder(v: seq<Record>, p: int, q: int, i: int, j: int)
    requires SortedBy(PublishedDateChronologicalOrder, v) && 1 <= p < q
    requires 0 <= i < |PageOf(RecipesOf(v), p)| && 0 <= j < |PageOf(RecipesOf(v), q)|
    ensures !StrLess(PageOf(RecipesOf(v), q)[j].publishedAt, PageOf(RecipesOf(v), p)[i].publishedAt)
  {
    var x := Skip(p) + i;
    var y := Skip(q) + j;
    EarlierPageComesFirst(p, q, i);
    assert PageOf(RecipesOf(v), p)[i] == v[x].recipe;
    assert PageOf(RecipesOf(v), q)[j] == v[y].recipe;
    assert Precedes(PublishedDateChronologicalOrder, v[x], v[y]);
    PubLessNotLater(v[x], v[y]);
  }

  /** The "next page" flag the store reports is set exactly when fetching
      the next page returns recipes. */
  lemma NextFlagIffNextPageHasRecipes(s: Store, page: int, rawOrder: string)
    requires s.open && (page >= 0 || |s.records| > 0)
    ensures PrevOrNextPageExists(s, page).Resolved?
    ensures PrevOrNextPageExists(s, page).value.1 <==> |Fetch(s, page + 1, rawOrder).value| > 0
  {
    NextFlagIffNextPageNonEmpty(ViewOf(s, rawOrder), page);
  }

  /** A worked example: with 25 bookmarks, page 1 has only a next page and
      page 3 has only a previous one. */
  lemma PrevOrNextOnTwentyFive(s: Store)
    requires s.open && |s.records| == 25
    ensures PrevOrNextPageExists(s, 1) == Resolved((false, true))
    ensures PrevOrNextPageExists(s, 3) == Resolved((true, false))
  {
    PrevOrNextExamples();
  }
}

=== FILE: paging.dfy ===
/** Pagination arithmetic of the bookmark list: which slice of a cursor view
    a page shows, how many pages there are, and whether the neighbouring
    pages exist. */
module Paging {

  /** Recipes shown on one page of the bookmark list. */
  const PageSize: nat := 10

  function Min(a: int, b: int): int { if a <= b then a else b }

  /** Records the cursor advances past before collecting: page 1 and
      anything below it start at the first record. */
  function Skip(page: int): nat {
    if page > 1 then (page - 1) * PageSize else 0
  }

  /** The page `page` of a view: what is left after skipping, cut to one
      page. */
  function PageOf<T>(view: seq<T>, page: int): (r: seq<T>)
    ensures |r| <= PageSize
    ensures |r| == if Skip(page) < |view| then Min(PageSize, |view| - Skip(page)) else 0
    ensures forall i :: 0 <= i < |r| ==> r[i] == view[Skip(page) + i]
  {
    if Skip(page) >= |view| then []
    else view[Skip(page) .. Min(Skip(page) + PageSize, |view|)]
  }

  /** A run of the view that starts after the skipped records and stops at
      the end of the view or after one page is that page. */
  lemma RunIsPage<T>(view: seq<T>, page: int, run: seq<T>)
    requires |run| <= PageSize
    requires |run| == PageSize || Skip(page) + |run| >= |view|
    requires |run| > 0 ==> Skip(page) + |run| <= |view|
    requires forall i :: 0 <= i < |run| ==> Skip(page) + i < |view| && run[i] == view[Skip(page) + i]
    ensures run == PageOf(view, page)
  {
  }

  /** Every position on an earlier page comes before the start of a later
      page. */
  lemma EarlierPageComesFirst(p: int, q: int, i: int)
    requires 1 <= p < q && 0 <= i < PageSize
    ensures Skip(p) + i < Skip(q)
  {
    assert (q - 1) * PageSize >= p * PageSize;
  }

  /** Number of pages for `count` records: count / 10 rounded up. */
  function PageCount(count: nat): nat {
    (count + PageSize - 1) / PageSize
  }

  /** PageCount is the ceiling of count / PageSize: the least number of
      pages that holds every record. */
  lemma PageCountIsCeiling(count: nat)
    ensures PageCount(count) * PageSize >= count
    ensures count > 0 ==> (PageCount(count) - 1) * PageSize < count
    ensures count == 0 ==> PageCount(count) == 0
  {
  }

  /** [previous page exists, next page exists] for a page of a store
      holding `count` records. */
  function PrevOrNext(page: int, count: nat): (bool, bool) {
    (page > 1, page < PageCount(count))
  }

  /** A worked example: with 25 bookmarks, page 1 has only a next page,
      page 2 has both and page 3 has only a previous one. */
  lemma PrevOrNextExamples()
    ensures PrevOrNext(1, 25) == (false, true)
    ensures PrevOrNext(2, 25) == (true, true)
    ensures PrevOrNext(3, 25) == (true, false)
  {
  }

  /** A page has records exactly when it is one of the first PageCount
      pages (pages below 1 read as page 1). */
  lemma PageNonEmptyIffInRange<T>(view: seq<T>, page: int)
    ensures |PageOf(view, page)| > 0 <==> (|view| > 0 && page <= PageCount(|view|))
  {
    var n := |view|;
    PageCountIsCeiling(n);
    if page > 1 && page <= PageCount(n) {
      assert (page - 1) * PageSize <= (PageCount(n) - 1) * PageSize;
    }
    if page > PageCount(n) && page > 1 {
      assert (page - 1) * PageSize >= PageCount(n) * PageSize;
    }
  }

  /** The "next page" flag is set exactly when the next page has records.
      (For a negative page number and an empty view the flag is set although
      page 0 is empty, hence the bound.) */
  lemma NextFlagIffNextPageNonEmpty<T>(view: seq<T>, page: int)
    requires page >= 0 || |view| > 0
    ensures PrevOrNext(page, |view|).1 <==> |PageOf(view, page + 1)| > 0
  {
    PageNonEmptyIffInRange(view, page + 1);
    PageCountIsCeiling(|view|);
    if page < 1 && |view| > 0 {
      assert PageCount(|view|) >= 1;
    }
  }

  /** Pages 1..k, joined. */
  function Pages<T>(view: seq<T>, k: nat): seq<T> {
    if k == 0 then [] else Pages(view, k - 1) + PageOf(view, k)
  }

  lemma {:induction false} PagesArePrefix<T>(view: seq<T>, k: nat)
    ensures Pages(view, k) == view[..Min(k * PageSize, |view|)]
  {
    if k > 0 {
      PagesArePrefix(view, k - 1);
      var lo := Min((k - 1) * PageSize, |view|);
      var hi := Min(k * PageSize, |view|);
      assert Skip(k) == (k - 1) * PageSize;
      assert PageOf(view, k) == view[lo..hi];
      assert view[..lo] + view[lo..hi] == view[..hi];
    }
  }

  /** Reading pages 1 to PageCount in turn yields the whole view, each
      record once, in view order. */
  lemma PagesCoverView<T>(view: seq<T>)
    ensures Pages(view, PageCount(|view|)) == view
  {
    PagesArePrefix(view, PageCount(|view|));
    PageCountIsCeiling(|view|);
  }
}

=== FILE: recipe_button.dfy ===
/** The bookmark button of a recipe list element: a small state machine
    driven by the store's replies to the mount-time lookup and to clicks,
    and the icon and status text each state shows. */
module RecipeButton {
  import opened Recipes
  import opened BookmarkStore
  import opened BookmarkStoreProperties

  datatype BookmarkState =
    | Loading
    | NewNotBookmarked
    | NotBookmarked
    | Bookmarked
    | NewBookmarked
    | Error

  /** The state a freshly rendered button starts in. */
  const InitialState: BookmarkState := Loading

  const CheckIcon: string := "✔"
  const HourglassIcon: string := "⌛"
  const PinIcon: string := "📌"
  const ErrorIcon: string := "❌ "

  const AddedText: string := "ブックマーク追加済"
  const RemovedText: string := "ブックマーク削除済"

  /** The button after its mount effect: initialize the store, look the
      recipe up, and show the answer if the element is still mounted when
      the answer arrives. A failed initialize or lookup returns before any
      state update, so the button keeps its state. */
  function OnMount(s: Store, recipeId: int, mounted: bool, current: BookmarkState): (r: (Store, BookmarkState))
    ensures r.0 == Initialize(s).store
    ensures Valid(s) ==> r.0.records == s.records
    ensures !mounted ==> r.1 == current
    ensures !Initialize(s).reply.Resolved? ==> r.1 == current
    ensures r.1 != current ==> mounted && (r.1 == Bookmarked || r.1 == NotBookmarked)
    ensures mounted && Initialize(s).reply.Resolved? && Valid(s) ==>
      (r.1 == Bookmarked <==> Contains(r.0.records, recipeId)) &&
      (r.1 == NotBookmarked <==> !Contains(r.0.records, recipeId))
  {
    var init := Initialize(s);
    if !init.reply.Resolved? then (init.store, current)
    else
      match IsIn(init.store, recipeId)
      case Resolved(isBookmarked) =>
        if mounted then (init.store, if isBookmarked then Bookmarked else NotBookmarked)
        else (init.store, current)
      case _ => (init.store, current)
  }

  /** The button after a click: toggle the recipe; a true reply means it was
      just added, false that it was just removed, a rejection shows the
      error state. */
  function OnClick(s: Store, x: Recipe, current: BookmarkState): (r: (Store, BookmarkState))
    ensures r.0 == Toggle(s, x).store
    ensures !s.open ==> r == (s, Error)
    ensures s.open ==> (r.1 == NewBookmarked <==> !Contains(s.records, x.id))
    ensures s.open ==> (r.1 == NewNotBookmarked <==> Contains(s.records, x.id))
  {
    var t := Toggle(s, x);
    match t.reply
    case Resolved(bookmarked) => (t.store, if bookmarked then NewBookmarked else NewNotBookmarked)
    case Rejected(_) => (t.store, Error)
    case Pending => (t.store, current)
  }

  /** The button's icon. */
  function Icon(st: BookmarkState): (r: string)
    ensures r == CheckIcon <==> st == Bookmarked || st == NewBookmarked
    ensures r == PinIcon <==> st == NotBookmarked || st == NewNotBookmarked
    ensures r == HourglassIcon <==> st == Loading
    ensures r == ErrorIcon <==> st == Error
  {
    assert |ErrorIcon| == 2 && |CheckIcon| == |PinIcon| == |HourglassIcon| == 1;
    assert CheckIcon[0] != PinIcon[0] && PinIcon[0] != HourglassIcon[0] && HourglassIcon[0] != CheckIcon[0];
    match st
    case Bookmarked | NewBookmarked => CheckIcon
    case Loading => HourglassIcon
    case NotBookmarked | NewNotBookmarked => PinIcon
    case Error => ErrorIcon
  }

  /** The text beside the icon, shown only right after a click. */
  function StatusText(st: BookmarkState): (r: Option<string>)
    ensures r.Some? <==> st == NewBookmarked || st == NewNotBookmarked
    ensures st == NewBookmarked ==> r == Some(AddedText)
    ensures st == NewNotBookmarked ==> r == Some(RemovedText)
    ensures r.Some? ==> (r.value == AddedText <==> st == NewBookmarked)
  {
    if st == NewBookmarked then Some(AddedText)
    else if st == NewNotBookmarked then Some(RemovedText)
    else None
  }

  /** Until the mount effect answers, the button shows the hourglass and no
      text. */
  lemma InitialShowsHourglass()
    ensures Icon(InitialState) == HourglassIcon && StatusText(InitialState) == None
  {
  }

  /** Once the lookup has answered on a mounted element, the icon shows
      the check mark exactly when the store holds the recipe, and no
      text. */
  lemma MountedIconReflectsStore(s: Store, recipeId: int, current: BookmarkState)
    requires Valid(s) && s.version <= DbVersion
    ensures var (t, st) := OnMount(s, recipeId, true, current);
      (Icon(st) == CheckIcon <==> Contains(t.records, recipeId)) &&
      (Icon(st) == PinIcon <==> !Contains(t.records, recipeId)) &&
      StatusText(st) == None
  {
  }

  /** When initialization fails (a newer database version is stored), the
      button never leaves its current state; a fresh button keeps showing
      the hourglass. */
  lemma FailedMountKeepsLoading(s: Store, recipeId: int, mounted: bool)
    requires !s.open && s.version > DbVersion
    ensures OnMount(s, recipeId, mounted, InitialState).1 == Loading
  {
  }

  /** After a click on an open store, the icon shows the check mark exactly
      when the store now holds the recipe, and the text says which way it
      went. */
  lemma ClickIconReflectsStore(s: Store, x: Recipe, current: BookmarkState)
    requires Valid(s) && s.open && s.nextKey <= MaxGeneratedKey
    ensures var (t, st) := OnClick(s, x, current);
      (Icon(st) == CheckIcon <==> Contains(t.records, x.id)) &&
      StatusText(st) == Some(if Contains(t.records, x.id) then AddedText else RemovedText)
  {
    ToggleFlipsMembership(s, x);
  }

  /** The mount opens the handle: a click after the mount toggles instead
      of failing, whether or not the element was still mounted when the
      lookup answered. */
  lemma MountThenClickToggles(s: Store, x: Recipe, mounted: bool, current: BookmarkState)
    requires Valid(s) && s.version <= DbVersion
    ensures OnMount(s, x.id, mounted, current).0.open
    ensures OnClick(OnMount(s, x.id, mounted, current).0, x, current).1 != Error
  {
  }

  /** A click before the store was opened in this page load shows the
      error icon. */
  lemma ClickBeforeInitShowsError(s: Store, x: Recipe, current: BookmarkState)
    requires !s.open
    ensures Icon(OnClick(s, x, current).1) == ErrorIcon
    ensures StatusText(OnClick(s, x, current).1) == None
  {
  }
}

=== FILE: recipes.dfy ===
/** The recipe record the bookmark store persists, and the order on its
    `published_at` timestamps that the store's `published_at` index uses. */
module Recipes {

  datatype Ingredient = Ingredient(name: string, quantity: string)

  /** A recipe as delivered by the recipe API. The store treats it as an
      opaque value apart from `id` (unique index) and `publishedAt`
      (non-unique index). */
  datatype Recipe = Recipe(
    id: int,
    title: string,
    description: string,
    imageUrl: Option<string>,
    authorUserName: string,
    publishedAt: string,
    steps: seq<string>,
    ingredients: seq<Ingredient>,
    relatedRecipes: seq<int>
  )

  datatype Option<+T> = None | Some(value: T)

  /** Lexicographic order on strings, character by character; a proper
      prefix comes first. This is how the index compares two ISO 8601
      timestamps. */
  predicate StrLess(a: string, b: string)
    decreases |a|
  {
    if |b| == 0 then false
    else if |a| == 0 then true
    else if a[0] != b[0] then a[0] < b[0]
    else StrLess(a[1..], b[1..])
  }

  lemma {:induction false} StrLessIrreflexive(a: string)
    ensures !StrLess(a, a)
    decreases |a|
  {
    if |a| > 0 {
      StrLessIrreflexive(a[1..]);
    }
  }

  lemma {:induction false} StrLessTransitive(a: string, b: string, c: string)
    requires StrLess(a, b) && StrLess(b, c)
    ensures StrLess(a, c)
    decreases |a|
  {
    if |a| > 0 && a[0] == b[0] && b[0] == c[0] {
      StrLessTransitive(a[1..], b[1..], c[1..]);
    }
  }

  /** Any two different strings are ordered one way or the other. */
  lemma {:induction false} StrLessTotal(a: string, b: string)
    requires a != b
    ensures StrLess(a, b) || StrLess(b, a)
    decreases |a|
  {
    if |a| > 0 && |b| > 0 && a[0] == b[0] {
      assert a == [a[0]] + a[1..] && b == [b[0]] + b[1..];
      StrLessTotal(a[1..], b[1..]);
    }
  }

  lemma {:induction false} StrLessAsymmetric(a: string, b: string)
    requires StrLess(a, b)
    ensures !StrLess(b, a)
  {
    if StrLess(b, a) {
      StrLessTransitive(a, b, a);
      StrLessIrreflexive(a);
    }
  }
}

=== FILE: sorting_orders.dfy ===
/** The four sort orders of the bookmark list, their query-string names,
    their display labels, and how the store picks a cursor for a raw
    `sortingOrder` string. */
module SortingOrders {

  datatype SortingOrder =
    | PublishedDateChronologicalOrder
    | PublishedDateReverseChronologicalOrder
    | BookmarkedDateChronologicalOrder
    | BookmarkedDateReverseChronologicalOrder
  {
    /** Iterates the store by its auto-increment key rather than the
        `published_at` index. */
    predicate ByBookmarkedDate() {
      BookmarkedDateChronologicalOrder? || BookmarkedDateReverseChronologicalOrder?
    }

    /** Iterates with a "prev" (descending) cursor. */
    predicate Descending() {
      PublishedDateReverseChronologicalOrder? || BookmarkedDateReverseChronologicalOrder?
    }
  }

  /** The iterable list of orders, in the order the selector shows them. */
  const AllOrders: seq<SortingOrder> := [
    PublishedDateChronologicalOrder,
    PublishedDateReverseChronologicalOrder,
    BookmarkedDateChronologicalOrder,
    BookmarkedDateReverseChronologicalOrder
  ]

  /** The order used when the query carries none. */
  const DefaultOrder: SortingOrder := BookmarkedDateReverseChronologicalOrder

  /** The string an order is written as in a query string. */
  function Name(o: SortingOrder): string {
    match o
    case PublishedDateChronologicalOrder => "PublishedDateChronologicalOrder"
    case PublishedDateReverseChronologicalOrder => "PublishedDateReverseChronologicalOrder"
    case BookmarkedDateChronologicalOrder => "BookmarkedDateChronologicalOrder"
    case BookmarkedDateReverseChronologicalOrder => "BookmarkedDateReverseChronologicalOrder"
  }

  /** The label the selector shows for an order. */
  function Label(o: SortingOrder): string {
    match o
    case PublishedDateChronologicalOrder => "過去に公開された順"
    case PublishedDateReverseChronologicalOrder => "新しく公開された順"
    case BookmarkedDateChronologicalOrder => "過去にブックマークした順"
    case BookmarkedDateReverseChronologicalOrder => "最近ブックマークした順"
  }

  /** The cursor the store opens for a raw order string, which is never
      validated: a string starting with "Bookmarked" walks the key order,
      anything else walks the `published_at` index, and only the two exact
      reverse names walk backwards. */
  function CursorOrder(raw: string): (o: SortingOrder)
    ensures o.ByBookmarkedDate() <==> "Bookmarked" <= raw
    ensures o.Descending() <==>
      raw == Name(BookmarkedDateReverseChronologicalOrder) ||
      raw == Name(PublishedDateReverseChronologicalOrder)
  {
    if "Bookmarked" <= raw then
      assert raw[0] == 'B' != Name(PublishedDateReverseChronologicalOrder)[0];
      if raw == "BookmarkedDateReverseChronologicalOrder" then BookmarkedDateReverseChronologicalOrder
      else BookmarkedDateChronologicalOrder
    else
      if raw == "PublishedDateReverseChronologicalOrder" then PublishedDateReverseChronologicalOrder
      else PublishedDateChronologicalOrder
  }

  /** Writing an order into a query string and reading it back through the
      store's cursor selection gives the same order. */
  lemma NameRoundTrip(o: SortingOrder)
    ensures CursorOrder(Name(o)) == o
  {
    var b := "Bookmarked";
    if o.ByBookmarkedDate() {
      assert Name(o)[..|b|] == b;
    } else {
      assert Name(o)[0] != b[0];
    }
  }

  /** The list holds every order exactly once. */
  lemma AllOrdersListsEachOnce(o: SortingOrder)
    ensures o in AllOrders
    ensures forall i, j :: 0 <= i < j < |AllOrders| ==> AllOrders[i] != AllOrders[j]
  {
  }

  /** No two orders share a label or a name. */
  lemma LabelsAndNamesDistinct(o1: SortingOrder, o2: SortingOrder)
    requires o1 != o2
    ensures Label(o1) != Label(o2)
    ensures Name(o1) != Name(o2)
  {
  }
}
